=== FILE: README.md ===
# MoneyAPI record store, modelled in Dafny

MoneyAPI keeps records of transfer intents behind an authenticated HTTP API.
There are three linked tables: bank servers, bank accounts hosted on a
server, and transactions drawn on an account. There are fifteen handlers.
Servers and accounts each have list, get, create, update and delete.
Transactions have list, get, create, delete, and an update of the status
alone. Every route sits behind one shared bearer secret.
No money moves anywhere.

The model treats the database as an immutable value (`Models.Store`): three
maps from primary key to row, plus one auto-increment counter per table.
Each handler is a pure function from a store to an error
(`NotFound`, `Conflict`, `Unauthorized`) or to a new store with a response
view. `Routes.Handle` puts the bearer check in front of the route table.
`Models.Valid` is the integrity invariant every request preserves. It says:

- server names are unique, and so are server addresses;
- every account's server exists, and every transaction's source account exists;
- every key came from its table's counter.

Modules, one per file:

- `results.dfy`: `Results`, holding `Option`, `Error` and `Result`.
- `models.dfy`: `Models`, holding the rows, the declared choices, the store and the invariant.
- `schema.dfy`: `Schema`, holding request bodies and response views. A transaction view nests the
  view of its source account, which nests the view of that account's server.
- `api.dfy`: `Api`, holding the bearer check and the fifteen handlers.
- `cascades.dfy`: `Cascades`. It characterises each cascading delete independently of how the
  handler computes it: the delete keeps the largest part of the database in which both foreign
  keys still resolve.
- `routes.dfy`: `Routes`, holding the requests, the auth gate, and properties that span several
  requests.

The handlers that build nested views (account and transaction get and
list, transaction create and status update) require the foreign keys they
follow to resolve. The database guarantees this, and `Valid` includes it.

`Conflict` stands for the integrity error the storage raises when a write
would break the unique constraint on server names or addresses. The handlers
do not catch it, so the framework answers with its generic server error. In
every case the write does not happen.

Three quirks of the code, which the model keeps:

- The status column declares the default `'Pending'`, with a capital letter. That is not one of
  the declared choices. The create route writes `"pending"` itself, so the default is never used.
- Choices of type and status are never validated. Rows are written without running field
  validation, so both columns hold any string.
- The server schema is declared twice. The second declaration shadows the first and has no
  address field, so server views carry only id and name.

## Model

| member | source | states |
|---|---|---|
| `Api.Authenticate` | MoneyAPI/api.py:9-13 | A token is accepted exactly when it equals the fixed secret. An accepted token is returned unchanged. |
| `Models.EmptyStore` | MoneyAPI/models.py:5-51 | The three tables start empty with their counters at 1, and that database satisfies `Valid`. |
| `Models.AscendingKeys` | MoneyAPI/api.py:95 | A table scan: it yields exactly the keys of the table below the counter, each once, in strictly ascending (insertion) order. |
| `Routes.KeysNeverReused` | MoneyAPI/models.py:5-51 | Each table's implicit auto-increment key is never handed out twice. No request moves a counter back, and every row a request adds has a key at or above the counter it found. |
| `Routes.Dispatch` | MoneyAPI/api.py:69-662 | The route table, past the bearer check. No route answers Unauthorized. A failing route leaves the database unchanged, GET routes never change it, and every route preserves `Valid`. |
| `Routes.Handle` | MoneyAPI/api.py:66 | Every route is behind the bearer check. The reply is Unauthorized exactly when the token is missing or is not the secret. Every error leaves the database unchanged. GET routes never change it. Every request preserves `Valid`. |
| `Api.ListBankServers` | MoneyAPI/api.py:95-96 | Every listed server is what a get of its id returns. Ids are strictly ascending (insertion order). Every allocated server appears. |
| `Api.GetBankServer` | MoneyAPI/api.py:125-126 | Fails with NotFound exactly when the id is absent. Otherwise returns that server's id and name. |
| `Api.CreateBankServer` | MoneyAPI/api.py:158-162 | Conflict exactly when another server already has the name or the address; nothing is written then. Otherwise writes one new row under a fresh id taken from the server counter, which moves past it. Accounts and transactions are unchanged, and `Valid` is preserved. |
| `Api.UpdateBankServer` | MoneyAPI/api.py:195-199 | An absent id gives NotFound. A name or address held by another server gives Conflict. Otherwise overwrites both fields of that one server; the rest of the database is unchanged, and `Valid` is preserved. |
| `Api.DeleteBankServer` | MoneyAPI/api.py:214-216 | NotFound exactly when the id is absent. Otherwise removes the server and exactly the accounts on it. A transaction survives exactly when its account survives. The result is part of the old database, the counters are untouched, and `Valid` is preserved. |
| `Api.ListBankAccounts` | MoneyAPI/api.py:254-255 | Every listed account is what a get of its id returns. Ids are strictly ascending, and every allocated account appears. |
| `Api.GetBankAccount` | MoneyAPI/api.py:289-290 | NotFound exactly when the id is absent. Otherwise the view shows exactly the stored account row, and it embeds the full view (id and name) of that account's server. |
| `Api.CreateBankAccount` | MoneyAPI/api.py:328-334 | NotFound, with nothing inserted, exactly when the server id is absent. Otherwise adds one account under a fresh id taken from the account counter, which moves past it. The account points at that server. The response embeds the server's view in place of the input id. Servers and transactions are unchanged, and `Valid` is preserved. |
| `Api.UpdateBankAccount` | MoneyAPI/api.py:373-379 | NotFound exactly when the account or the new server is absent. Otherwise reassigns the server and overwrites name and number; nothing else changes, and `Valid` is preserved. |
| `Api.DeleteBankAccount` | MoneyAPI/api.py:394-396 | NotFound exactly when the id is absent. Otherwise removes the account and exactly the transactions drawn on it. Servers and the counters are untouched, and `Valid` is preserved. |
| `Api.ListTransactions` | MoneyAPI/api.py:454-455 | Every listed transaction is what a get of its id returns. Ids are strictly ascending, and every allocated transaction appears. |
| `Api.GetTransaction` | MoneyAPI/api.py:501-502 | NotFound exactly when the id is absent. Otherwise the view shows exactly the stored row, and its source account is the full account view, with that account's server embedded. |
| `Api.CreateTransaction` | MoneyAPI/api.py:592-607 | NotFound, with nothing inserted, exactly when the source account is absent. Otherwise writes one row under a fresh id taken from the transaction counter, which moves past it. Every column comes from the body, except that status is "pending" and the creation time is the clock reading. The response nests the full view of the source account and its server. Servers and accounts are unchanged, and `Valid` is preserved. |
| `Api.UpdateTransactionStatus` | MoneyAPI/api.py:656-659 | NotFound exactly when the id is absent. Otherwise sets the status to the supplied string, with no check against the declared choices. Type, amount, source, targets and creation time are unchanged, and so are every other row and the key counters. The response carries the transaction's own id. The response nests the full view of the source account and its server. |
| `Api.DeleteTransaction` | MoneyAPI/api.py:674-676 | NotFound exactly when the id is absent. Otherwise removes exactly that one transaction. Accounts, servers and the counters are untouched. |
| `Models.UniquenessAfterWrite` | MoneyAPI/models.py:7-8 | Writing a server row keeps both unique constraints exactly when no other row already holds its name or its address. |
| `Models.DeclaredDefaultIsNotAChoice` | MoneyAPI/models.py:29-50 | The declared status default 'Pending' is not among the declared choices, while "pending" is. |
| `Api.CascadeAccounts` | MoneyAPI/models.py:16-37 | The cascade collector: it removes exactly the given accounts and exactly the transactions drawn on one of them. Servers and every other row are kept unchanged, so the result is part of the old database. |
| `Cascades.DeleteServerRemovesDependents` | MoneyAPI/models.py:16-37 | Deleting a server removes exactly its accounts and, transitively, exactly the transactions drawn on those accounts. |
| `Cascades.DeleteServerKeepsLargestIntactPart` | MoneyAPI/models.py:16 | After a server delete, what is left satisfies both foreign keys and lacks the server. Every such part of the old database is contained in it. |
| `Cascades.DeleteAccountKeepsLargestIntactPart` | MoneyAPI/models.py:37 | After an account delete, what is left satisfies both foreign keys and lacks the account. Every such part of the old database is contained in it. |
| `Cascades.DeleteTransactionKeepsLargestIntactPart` | MoneyAPI/api.py:674-676 | Deleting a transaction cascades to nothing. Every part of the old database that lacks that row is kept. |
| `Schema.AccountViewAt` | MoneyAPI/schema.py:33-40 | The account view embeds the view of the account's server. The stored account row can be read back from the view. |
| `Schema.TransactionViewAt` | MoneyAPI/schema.py:62-82 | Every column is copied verbatim: id, type, amount, the seven target fields, status and creation time. The row can be read back from the view. The source account is nested as its account view. |
| `Schema.ServerViewForgetsAddress` | MoneyAPI/schema.py:19-24 | Two server views agree exactly when id and name agree. The effective server schema drops the address. |
| `Schema.NewTransaction` | MoneyAPI/api.py:594-606 | The create body carries no status. A row is its body's fields plus the status and creation time the server fills in; projecting the row back gives the body. |
| `Schema.RowDecomposes` | MoneyAPI/models.py:35-51 | A transaction row is exactly its client-supplied columns, its status and its creation time. |
| `Routes.BodyIsReadBack` | MoneyAPI/api.py:125-162 | Whatever body a successful request returns, a later get of the same id returns it again. |
| `Routes.TransactionColumnsAreStable` | MoneyAPI/models.py:51 | Across any request, a surviving transaction keeps its creation time and every client-supplied column. Only the status route for that row changes its status. |
| `Routes.CreatedTransactionIsPending` | MoneyAPI/api.py:605 | A created transaction is "pending" whatever the body holds, and carries the clock reading as its creation time. |
| `Routes.OmittedTargetsStayNone` | MoneyAPI/schema.py:89-95 | Target fields a create body omits are None in the response. |
| `Routes.StatusOutsideChoicesIsStored` | MoneyAPI/api.py:656-658 | The status route stores "completed", which is not a declared choice. |
| `Routes.TypeIsNotTiedToTargets` | MoneyAPI/models.py:35-48 | A "BANK" transfer carrying only a phone number is accepted. So is a type outside the declared choices. |
| `Routes.DuplicateServerIsRejected` | MoneyAPI/models.py:7-8 | For every valid database and every server in it: a create body that reuses that server's name, or its address, is rejected with Conflict and the database unchanged. |
| `Routes.DuplicateServerUpdateIsRejected` | MoneyAPI/models.py:7-8 | For every valid database: updating a server to the name or the address of a different server is rejected with Conflict and the database unchanged. |
| `Routes.ServerStep` | MoneyAPI/api.py:141-162 | The docstring's server create example, "New Bank Server" at 192.168.1.102, gets id 3 when two servers exist. The response has id and name only. |
| `Routes.AccountStep` | MoneyAPI/api.py:305-334 | The docstring's account create example on server 1 gets id 3. The response embeds server 1, "Main Bank Server". |
| `Routes.TransactionStep` | MoneyAPI/api.py:559-607 | The docstring's mobile transfer example, 50.00 from account 2 to "+1 555-1234" via CashApp, gets id 4 and comes back "pending". It nests account 2 and its server 2, "Backup Bank Server". Its type "mobile_transfer" is not a declared choice, yet it is stored. |
| `Routes.StatusStep` | MoneyAPI/api.py:623-659 | The docstring's status body "completed" is applied here to the mobile transfer, id 4; the docstring applies it to transaction 3. It is stored and returned as sent. |
| `Routes.ExampleScenario` | MoneyAPI/api.py:141-659 | The four docstring examples above, run in sequence, each on the database the previous one left. |

## Left out

- HTTP routing, body parsing and status codes. Each route is a `Routes.Request` constructor, and each outcome is a `Result`.
- Header parsing. The bearer token arrives already extracted: `None` stands for a missing or non-bearer `Authorization` header.
- The `APIKey` table, its migration and the admin configuration. Authentication never consults them.
- Decimal amounts. The amount column keeps at most 12 digits, 2 of them after the point. Storage rounds an amount to whole cents, and an amount of 10^10 or more does not fit in the column. The model takes amounts as unbounded integer cents, so it has neither the rounding nor the bound.
- `Api.CreateTransaction`: the create response is built from the object still in memory, so a sub-cent amount such as 50.005 is echoed unrounded while the stored row holds the rounded value. An amount of 10^10 or more fails at storage. The contract's `TransactionOf(r.value.body) == stored row` holds only for whole-cent amounts below 10^10, which are the only amounts the model can express.
- `Routes.BodyIsReadBack`: for the same reason, a later get returns the create body again only for whole-cent amounts below 10^10. A sub-cent amount comes back rounded.
- Rendering the creation time as an ISO-8601 string. The view carries the opaque timestamp itself, and the clock is a parameter of the create.
- Column length limits and IP-address format checks. Rows are written without field validation, and whether a database enforces lengths depends on the backend.
- A runtime failure of server create and update. The effective server schema has no address field and requires an `id` the handlers ignore. Both handlers are modelled as taking the (name, address) pair the table stores.
- `Api.CreateBankServer`: addresses are compared as raw strings. The address column is an IP-address field, and the storage layer canonicalises an IPv6 address before it is saved, so two spellings of one IPv6 address collide under the unique constraint. The model treats them as different. An empty address becomes NULL, which the column rejects; the model accepts it.
- `Api.UpdateBankServer`: the same raw-string comparison of addresses, with the same two gaps as for create.
- `Routes.Handle`: every error leaves the key counters unchanged. On some database backends a rejected server insert (Conflict) has already drawn its key from the table's sequence, which is never rolled back. The next successful create there gets a higher id than the model gives. Other backends match the model.
- Concurrency and the lost-update race of read-modify-write handlers. Each request is one atomic step.
- The amount limits and currency claims in the API description. No code enforces them.
- List order: the database promises none. The model lists rows by ascending id, which is insertion order under the auto-increment counters.
- `Api.ListBankServers`: completeness is stated for ids below the table's counter. Under `Valid`, that is every stored id; the same holds for `Api.ListBankAccounts` and `Api.ListTransactions`.

=== FILE: api.dfy ===
/** The endpoint handlers. Each is a pure function of the database: a read
    returns a view or an error; a write returns either an error, leaving
    the database as it was, or the new database with the response body. */
module Api {
  import opened Results
  import opened Models
  import opened Schema

  /** The one bearer token the API accepts. */
  const ApiSecret: string := "47061d41-7994-4fad-99a7-54879acd9a83"

  /** The bearer check: the token is accepted exactly when it is the secret. */
  function Authenticate(token: string): (r: Option<string>)
    ensures r.Some? <==> token == ApiSecret
    ensures r.Some? ==> r.value == token
  {
    if token == ApiSecret then Some(token) else None
  }

  /** A successful write: the new database and the response body. */
  datatype Effect<+T> = Effect(store: Store, body: T)

  // ---------------------------------------------------------------------
  // Bank servers.
  // ---------------------------------------------------------------------

  function ListBankServers(s: Store): (r: seq<ServerView>)
    ensures forall k :: 0 <= k < |r| ==> GetBankServer(s, r[k].id) == Ok(r[k])
    ensures forall i, j :: 0 <= i < j < |r| ==> r[i].id < r[j].id
    ensures forall id :: id in s.servers && 1 <= id < s.nextServerId ==>
      exists k :: 0 <= k < |r| && r[k].id == id
  {
    var ids := AscendingKeys(s.servers, s.nextServerId);
    var r := seq(|ids|, k requires 0 <= k < |ids| => ServerViewOf(ids[k], s.servers[ids[k]]));
    assert forall k :: 0 <= k < |r| ==> r[k].id == ids[k];
    r
  }

  function GetBankServer(s: Store, serverId: Id): (r: Result<ServerView>)
    ensures r.Err? <==> serverId !in s.servers
    ensures r.Err? ==> r.error == NotFound
    ensures r.Ok? ==> r.value.id == serverId && r.value.name == s.servers[serverId].name
  {
    if serverId in s.servers then Ok(ServerViewOf(serverId, s.servers[serverId])) else Err(NotFound)
  }

  /** Inserts a server under a fresh id. The unique constraints on name
      and on address reject a duplicate of either. */
  function CreateBankServer(s: Store, payload: ServerPayload): (r: Result<Effect<ServerView>>)
    ensures r.Err? <==> ViolatesUniqueness(s.servers, ServerRow(payload), {})
    ensures r.Err? ==> r.error == Conflict
    ensures r.Ok? ==>
      var id := r.value.body.id;
      && (Valid(s) ==> id !in s.servers)
      && s.nextServerId <= id < r.value.store.nextServerId
      && r.value.store.nextAccountId == s.nextAccountId && r.value.store.nextTransactionId == s.nextTransactionId
      && r.value.store.servers == s.servers[id := ServerRow(payload)]
      && r.value.store.accounts == s.accounts
      && r.value.store.transactions == s.transactions
      && r.value.body.name == payload.name
    ensures Valid(s) && r.Ok? ==> Valid(r.value.store)
  {
    var row := ServerRow(payload);
    if ViolatesUniqueness(s.servers, row, {}) then Err(Conflict)
    else
      var id := s.nextServerId;
      var s' := s.(servers := s.servers[id := row], nextServerId := id + 1);
      UniquenessAfterWrite(s.servers, id, row);
      Ok(Effect(s', ServerViewOf(id, row)))
  }

  /** Overwrites both fields of an existing server. A name or address that
      another server already holds is rejected by the unique constraints. */
  function UpdateBankServer(s: Store, serverId: Id, payload: ServerPayload): (r: Result<Effect<ServerView>>)
    ensures serverId !in s.servers ==> r == Err(NotFound)
    ensures serverId in s.servers ==>
      (r.Err? <==> ViolatesUniqueness(s.servers, ServerRow(payload), {serverId}))
    ensures serverId in s.servers && r.Err? ==> r.error == Conflict
    ensures r.Ok? ==>
      && r.value.store == s.(servers := s.servers[serverId := ServerRow(payload)])
      && r.value.body.id == serverId
      && r.value.body.name == payload.name
    ensures Valid(s) && r.Ok? ==> Valid(r.value.store)
  {
    if serverId !in s.servers then Err(NotFound)
    else
      var row := ServerRow(payload);
      if ViolatesUniqueness(s.servers, row, {serverId}) then Err(Conflict)
      else
        var s' := s.(servers := s.servers[serverId := row]);
        UniquenessAfterWrite(s.servers, serverId, row);
        Ok(Effect(s', ServerViewOf(serverId, row)))
  }

  /** Deletes the accounts in `doomed` and, through the cascade on the
      transaction's foreign key, every transaction drawn on one of them. */
  function CascadeAccounts(s: Store, doomed: set<Id>): (s': Store)
    ensures SubStore(s', s)
    ensures s'.servers == s.servers
    ensures forall a :: a in s'.accounts <==> a in s.accounts && a !in doomed
    ensures forall t :: t in s'.transactions <==>
      t in s.transactions && s.transactions[t].sourceAccount !in doomed
  {
    s.(accounts := map a | a in s.accounts && a !in doomed :: s.accounts[a],
       transactions := map t | t in s.transactions && s.transactions[t].sourceAccount !in doomed
                             :: s.transactions[t])
  }

  /** Deletes a server, its accounts, and their transactions. */
  function DeleteBankServer(s: Store, serverId: Id): (r: Result<Store>)
    ensures r.Err? <==> serverId !in s.servers
    ensures r.Err? ==> r.error == NotFound
    ensures r.Ok? ==>
      && SubStore(r.value, s)
      && SameCounters(r.value, s)
      && r.value.servers.Keys == s.servers.Keys - {serverId}
      && (forall a :: a in s.accounts ==>
            (a in r.value.accounts <==> s.accounts[a].bankServer != serverId))
    ensures r.Ok? && RefIntegrity(s) ==> forall t :: t in s.transactions ==>
      (t in r.value.transactions <==> s.transactions[t].sourceAccount in r.value.accounts)
    ensures Valid(s) && r.Ok? ==> Valid(r.value)
  {
    if serverId !in s.servers then Err(NotFound)
    else
      var doomed := set a | a in s.accounts && s.accounts[a].bankServer == serverId;
      var s' := CascadeAccounts(s, doomed);
      Ok(s'.(servers := s.servers - {serverId}))
  }

  // ---------------------------------------------------------------------
  // Bank accounts.
  // ---------------------------------------------------------------------

  function ListBankAccounts(s: Store): (r: seq<AccountView>)
    requires AccountsResolve(s)
    ensures forall k :: 0 <= k < |r| ==> GetBankAccount(s, r[k].id) == Ok(r[k])
    ensures forall i, j :: 0 <= i < j < |r| ==> r[i].id < r[j].id
    ensures forall id :: id in s.accounts && 1 <= id < s.nextAccountId ==>
      exists k :: 0 <= k < |r| && r[k].id == id
  {
    var ids := AscendingKeys(s.accounts, s.nextAccountId);
    var r := seq(|ids|, k requires 0 <= k < |ids| => AccountViewAt(s, ids[k]));
    assert forall k :: 0 <= k < |r| ==> r[k].id == ids[k];
    r
  }

  function GetBankAccount(s: Store, accountId: Id): (r: Result<AccountView>)
    requires AccountsResolve(s)
    ensures r.Err? <==> accountId !in s.accounts
    ensures r.Err? ==> r.error == NotFound
    ensures r.Ok? ==> r.value.id == accountId && AccountOf(r.value) == s.accounts[accountId]
    ensures r.Ok? ==>
      r.value.bankServer == ServerViewOf(s.accounts[accountId].bankServer, s.servers[s.accounts[accountId].bankServer])
  {
    if accountId in s.accounts then Ok(AccountViewAt(s, accountId)) else Err(NotFound)
  }

  /** Inserts an account on an existing server under a fresh id. */
  function CreateBankAccount(s: Store, payload: AccountCreate): (r: Result<Effect<AccountView>>)
    ensures r.Err? <==> payload.bankServer !in s.servers
    ensures r.Err? ==> r.error == NotFound
    ensures r.Ok? ==>
      var id := r.value.body.id;
      && (Valid(s) ==> id !in s.accounts)
      && s.nextAccountId <= id < r.value.store.nextAccountId
      && r.value.store.nextServerId == s.nextServerId && r.value.store.nextTransactionId == s.nextTransactionId
      && r.value.store.servers == s.servers
      && r.value.store.accounts == s.accounts[id := AccountRow(payload)]
      && r.value.store.transactions == s.transactions
      && AccountOf(r.value.body) == AccountRow(payload)
      && r.value.body.bankServer == ServerViewOf(payload.bankServer, s.servers[payload.bankServer])
    ensures Valid(s) && r.Ok? ==> Valid(r.value.store)
  {
    if payload.bankServer !in s.servers then Err(NotFound)
    else
      var id := s.nextAccountId;
      var s' := s.(accounts := s.accounts[id := AccountRow(payload)], nextAccountId := id + 1);
      Ok(Effect(s', AccountViewAt(s', id)))
  }

  /** Moves an existing account to an existing server and overwrites its
      name and number. Its transactions keep pointing at it. */
  function UpdateBankAccount(s: Store, accountId: Id, payload: AccountCreate): (r: Result<Effect<AccountView>>)
    ensures r.Err? <==> accountId !in s.accounts || payload.bankServer !in s.servers
    ensures r.Err? ==> r.error == NotFound
    ensures r.Ok? ==>
      && r.value.store == s.(accounts := s.accounts[accountId := AccountRow(payload)])
      && r.value.body.id == accountId
      && AccountOf(r.value.body) == AccountRow(payload)
      && r.value.body.bankServer == ServerViewOf(payload.bankServer, s.servers[payload.bankServer])
    ensures Valid(s) && r.Ok? ==> Valid(r.value.store)
  {
    if accountId !in s.accounts then Err(NotFound)
    else if payload.bankServer !in s.servers then Err(NotFound)
    else
      var s' := s.(accounts := s.accounts[accountId := AccountRow(payload)]);
      Ok(Effect(s', AccountViewAt(s', accountId)))
  }

  /** Deletes an account and its transactions. */
  function DeleteBankAccount(s: Store, accountId: Id): (r: Result<Store>)
    ensures r.Err? <==> accountId !in s.accounts
    ensures r.Err? ==> r.error == NotFound
    ensures r.Ok? ==>
      && SubStore(r.value, s)
      && SameCounters(r.value, s)
      && r.value.servers == s.servers
      && r.value.accounts.Keys == s.accounts.Keys - {accountId}
      && (forall t :: t in s.transactions ==>
            (t in r.value.transactions <==> s.transactions[t].sourceAccount != accountId))
    ensures Valid(s) && r.Ok? ==> Valid(r.value)
  {
    if accountId !in s.accounts then Err(NotFound)
    else Ok(CascadeAccounts(s, {accountId}))
  }

  // ---------------------------------------------------------------------
  // Transactions.
  // ---------------------------------------------------------------------

  function ListTransactions(s: Store): (r: seq<TransactionView>)
    requires RefIntegrity(s)
    ensures forall k :: 0 <= k < |r| ==> GetTransaction(s, r[k].id) == Ok(r[k])
    ensures forall i, j :: 0 <= i < j < |r| ==> r[i].id < r[j].id
    ensures forall id :: id in s.transactions && 1 <= id < s.nextTransactionId ==>
      exists k :: 0 <= k < |r| && r[k].id == id
  {
    var ids := AscendingKeys(s.transactions, s.nextTransactionId);
    var r := seq(|ids|, k requires 0 <= k < |ids| => TransactionViewAt(s, ids[k]));
    assert forall k :: 0 <= k < |r| ==> r[k].id == ids[k];
    r
  }

  function GetTransaction(s: Store, transactionId: Id): (r: Result<TransactionView>)
    requires RefIntegrity(s)
    ensures r.Err? <==> transactionId !in s.transactions
    ensures r.Err? ==> r.error == NotFound
    ensures r.Ok? ==> r.value.id == transactionId && TransactionOf(r.value) == s.transactions[transactionId]
    ensures r.Ok? ==> r.value.sourceAccount == AccountViewAt(s, s.transactions[transactionId].sourceAccount)
  {
    if transactionId in s.transactions then Ok(TransactionViewAt(s, transactionId)) else Err(NotFound)
  }

  /** Inserts a transaction drawn on an existing account. The status is
      always "pending"; the creation time `now` comes from the clock. */
  function CreateTransaction(s: Store, payload: TransactionCreate, now: Timestamp): (r: Result<Effect<TransactionView>>)
    requires AccountsResolve(s)
    ensures r.Err? <==> payload.sourceAccount !in s.accounts
    ensures r.Err? ==> r.error == NotFound
    ensures r.Ok? ==>
      var id := r.value.body.id;
      && (Valid(s) ==> id !in s.transactions)
      && s.nextTransactionId <= id < r.value.store.nextTransactionId
      && r.value.store.nextServerId == s.nextServerId && r.value.store.nextAccountId == s.nextAccountId
      && r.value.store.servers == s.servers
      && r.value.store.accounts == s.accounts
      && id in r.value.store.transactions
      && r.value.store.transactions == s.transactions[id := r.value.store.transactions[id]]
      && PayloadOf(r.value.store.transactions[id]) == payload
      && r.value.store.transactions[id].status == Pending
      && r.value.store.transactions[id].createdAt == now
      && TransactionOf(r.value.body) == r.value.store.transactions[id]
      && r.value.body.sourceAccount == AccountViewAt(s, payload.sourceAccount)
    ensures Valid(s) && r.Ok? ==> Valid(r.value.store)
  {
    if payload.sourceAccount !in s.accounts then Err(NotFound)
    else
      var id := s.nextTransactionId;
      var s' := s.(transactions := s.transactions[id := NewTransaction(payload, Pending, now)],
                   nextTransactionId := id + 1);
      Ok(Effect(s', TransactionViewAt(s', id)))
  }

  /** Overwrites the status of one transaction with any string; every other
      column, and every other row, stays as it was. */
  function UpdateTransactionStatus(s: Store, transactionId: Id, payload: StatusUpdate): (r: Result<Effect<TransactionView>>)
    requires RefIntegrity(s)
    ensures r.Err? <==> transactionId !in s.transactions
    ensures r.Err? ==> r.error == NotFound
    ensures r.Ok? ==>
      && r.value.store.servers == s.servers
      && r.value.store.accounts == s.accounts
      && SameCounters(r.value.store, s)
      && r.value.store.transactions.Keys == s.transactions.Keys
      && r.value.body.id == transactionId
      && (forall t :: t in s.transactions && t != transactionId ==>
            r.value.store.transactions[t] == s.transactions[t])
      && var row := r.value.store.transactions[transactionId];
         && row.status == payload.status
         && PayloadOf(row) == PayloadOf(s.transactions[transactionId])
         && row.createdAt == s.transactions[transactionId].createdAt
         && TransactionOf(r.value.body) == row
         && r.value.body.sourceAccount == AccountViewAt(s, s.transactions[transactionId].sourceAccount)
    ensures Valid(s) && r.Ok? ==> Valid(r.value.store)
  {
    if transactionId !in s.transactions then Err(NotFound)
    else
      var row := s.transactions[transactionId].(status := payload.status);
      var s' := s.(transactions := s.transactions[transactionId := row]);
      Ok(Effect(s', TransactionViewAt(s', transactionId)))
  }

  /** Deletes exactly one transaction. */
  function DeleteTransaction(s: Store, transactionId: Id): (r: Result<Store>)
    ensures r.Err? <==> transactionId !in s.transactions
    ensures r.Err? ==> r.error == NotFound
    ensures r.Ok? ==>
      && r.value.servers == s.servers
      && r.value.accounts == s.accounts
      && r.value.transactions.Keys == s.transactions.Keys - {transactionId}
      && SubStore(r.value, s)
      && SameCounters(r.value, s)
    ensures Valid(s) && r.Ok? ==> Valid(r.value)
  {
    if transactionId !in s.transactions then Err(NotFound)
    else Ok(s.(transactions := s.transactions - {transactionId}))
  }
}

=== FILE: cascades.dfy ===
/** What a cascading delete removes, stated independently of how the
    handlers compute it: deleting a row leaves the largest part of the
    database in which both foreign keys still resolve and that row is gone. */
module Cascades {
  import opened Models
  import Api

  /** Deleting a server removes exactly its accounts and, transitively,
      the transactions drawn on them; every other row survives. */
  lemma {:induction false} DeleteServerRemovesDependents(s: Store, serverId: Id)
    requires Valid(s) && serverId in s.servers
    ensures var s' := Api.DeleteBankServer(s, serverId).value;
      && (forall a :: a in s.accounts ==> (a in s'.accounts <==> s.accounts[a].bankServer != serverId))
      && (forall t :: t in s.transactions ==>
            (t in s'.transactions <==> s.accounts[s.transactions[t].sourceAccount].bankServer != serverId))
  {
    var s' := Api.DeleteBankServer(s, serverId).value;
    forall t | t in s.transactions
      ensures t in s'.transactions <==> s.accounts[s.transactions[t].sourceAccount].bankServer != serverId
    {
      var a := s.transactions[t].sourceAccount;
      assert a in s.accounts;
      assert a in s'.accounts <==> s.accounts[a].bankServer != serverId;
    }
  }

  /** Every part of the database that satisfies both foreign keys and no
      longer holds server `serverId` is contained in what the delete keeps;
      and what the delete keeps is itself such a part. */
  lemma {:induction false} DeleteServerKeepsLargestIntactPart(s: Store, serverId: Id, part: Store)
    requires Valid(s) && serverId in s.servers
    requires SubStore(part, s) && serverId !in part.servers && RefIntegrity(part)
    ensures var s' := Api.DeleteBankServer(s, serverId).value;
      SubStore(part, s') && SubStore(s', s) && serverId !in s'.servers && RefIntegrity(s')
  {
    var s' := Api.DeleteBankServer(s, serverId).value;
    forall a | a in part.accounts
      ensures a in s'.accounts && s'.accounts[a] == part.accounts[a]
    {
      var srv := part.accounts[a].bankServer;
      assert srv in part.servers;
      assert s.accounts[a].bankServer == srv;
    }
    forall t | t in part.transactions
      ensures t in s'.transactions && s'.transactions[t] == part.transactions[t]
    {
      var a := part.transactions[t].sourceAccount;
      assert a in part.accounts;
      assert a in s'.accounts;
    }
  }

  /** Deleting an account removes exactly the transactions drawn on it;
      servers, other accounts and other transactions survive unchanged. */
  lemma {:induction false} DeleteAccountKeepsLargestIntactPart(s: Store, accountId: Id, part: Store)
    requires Valid(s) && accountId in s.accounts
    requires SubStore(part, s) && accountId !in part.accounts && RefIntegrity(part)
    ensures var s' := Api.DeleteBankAccount(s, accountId).value;
      SubStore(part, s') && SubStore(s', s) && accountId !in s'.accounts && RefIntegrity(s')
  {
    var s' := Api.DeleteBankAccount(s, accountId).value;
    forall t | t in part.transactions
      ensures t in s'.transactions && s'.transactions[t] == part.transactions[t]
    {
      var a := part.transactions[t].sourceAccount;
      assert a in part.accounts;
      assert a != accountId;
    }
  }

  /** Deleting a transaction never cascades: it removes that one row. */
  lemma {:induction false} DeleteTransactionKeepsLargestIntactPart(s: Store, transactionId: Id, part: Store)
    requires Valid(s) && transactionId in s.transactions
    requires SubStore(part, s) && transactionId !in part.transactions
    ensures var s' := Api.DeleteTransaction(s, transactionId).value;
      SubStore(part, s') && SubStore(s', s) && transactionId !in s'.transactions && RefIntegrity(s')
  {
  }
}

=== FILE: models.dfy ===
/** The three linked tables of the record store: bank servers, bank accounts
    hosted on a server, and transactions drawn on an account. A table is a
    map from primary key to row; each table keeps its own auto-increment
    counter, so a key is never handed out twice. */
module Models {
  import opened Results

  /** Primary keys. Requests carry arbitrary integers; stored keys are >= 1. */
  type Id = int

  /** Amounts in cents: the column is a decimal with two places. */
  type Cents = int

  /** A creation time, opaque to the model. */
  type Timestamp = int

  /** A bank's server. Name and address are each unique across the table. */
  datatype BankServer = BankServer(name: string, serverIpAddress: string)

  /** An account hosted on the server `bankServer`. The number need not be unique. */
  datatype BankAccount = BankAccount(bankServer: Id, accountName: string, accountNumber: string)

  /** One transfer intent drawn on `sourceAccount`. The seven target fields
      are nullable and are not tied to `transactionType`. */
  datatype Transaction = Transaction(
    transactionType: string,
    amount: Cents,
    sourceAccount: Id,
    targetIban: Option<string>,
    targetSwiftCode: Option<string>,
    targetBankAccountNumber: Option<string>,
    targetBankName: Option<string>,
    targetPhoneNumber: Option<string>,
    targetCountry: Option<string>,
    provider: Option<string>,
    status: string,
    createdAt: Timestamp)

  /** Declared choices of `transaction_type`. Rows are written without
      running choice validation, so the column itself holds any string. */
  const BankTransfer: string := "BANK"
  const MobileTransfer: string := "MOBILE"
  const TransactionTypes: set<string> := {BankTransfer, MobileTransfer}

  /** Declared choices of `status`. */
  const Pending: string := "pending"
  const Succeeded: string := "success"
  const Failed: string := "failed"
  const TransactionStatuses: set<string> := {Pending, Succeeded, Failed}

  /** The default the status column declares. Note the capital letter. */
  const DeclaredStatusDefault: string := "Pending"

  /** The declared default is not among the declared choices; no route
      relies on it, since a create writes "pending" itself. */
  lemma DeclaredDefaultIsNotAChoice()
    ensures DeclaredStatusDefault !in TransactionStatuses
    ensures Pending in TransactionStatuses
  {
  }

  /** The whole database: three tables and their key counters. */
  datatype Store = Store(
    servers: map<Id, BankServer>,
    accounts: map<Id, BankAccount>,
    transactions: map<Id, Transaction>,
    nextServerId: Id,
    nextAccountId: Id,
    nextTransactionId: Id)

  /** The database before any request. */
  function EmptyStore(): (s: Store)
    ensures Valid(s)
    ensures s.servers == map[] && s.accounts == map[] && s.transactions == map[]
    ensures s.nextServerId == 1 && s.nextAccountId == 1 && s.nextTransactionId == 1
  {
    Store(map[], map[], map[], 1, 1, 1)
  }

  // ---------------------------------------------------------------------
  // Integrity: the declarative rules of the three tables.
  // ---------------------------------------------------------------------

  /** No two servers share a name. */
  ghost predicate UniqueNames(servers: map<Id, BankServer>) {
    forall i, j :: i in servers && j in servers && i != j ==> servers[i].name != servers[j].name
  }

  /** No two servers share an address. */
  ghost predicate UniqueAddresses(servers: map<Id, BankServer>) {
    forall i, j :: i in servers && j in servers && i != j ==>
      servers[i].serverIpAddress != servers[j].serverIpAddress
  }

  /** Every account's server exists. */
  ghost predicate AccountsResolve(s: Store) {
    forall a :: a in s.accounts ==> s.accounts[a].bankServer in s.servers
  }

  /** Every transaction's source account exists. */
  ghost predicate TransactionsResolve(s: Store) {
    forall t :: t in s.transactions ==> s.transactions[t].sourceAccount in s.accounts
  }

  /** Both foreign keys resolve. */
  ghost predicate RefIntegrity(s: Store) {
    AccountsResolve(s) && TransactionsResolve(s)
  }

  /** Every key of `m` was handed out by a counter now standing at `next`. */
  ghost predicate KeysBelow<V>(m: map<Id, V>, next: Id) {
    forall k :: k in m ==> 1 <= k < next
  }

  /** Every stored key came from its table's counter, and the counters start at 1. */
  ghost predicate KeysAllocated(s: Store) {
    1 <= s.nextServerId && 1 <= s.nextAccountId && 1 <= s.nextTransactionId
    && KeysBelow(s.servers, s.nextServerId)
    && KeysBelow(s.accounts, s.nextAccountId)
    && KeysBelow(s.transactions, s.nextTransactionId)
  }

  /** The invariant every request preserves. */
  ghost predicate Valid(s: Store) {
    UniqueNames(s.servers) && UniqueAddresses(s.servers) && RefIntegrity(s) && KeysAllocated(s)
  }

  /** The nested view of transaction `t` can be built: its source account and that account's server exist. */
  ghost predicate TransactionResolves(s: Store, t: Id)
    requires t in s.transactions
  {
    s.transactions[t].sourceAccount in s.accounts
    && s.accounts[s.transactions[t].sourceAccount].bankServer in s.servers
  }

  /** The unique constraints reject `candidate` as a row of `servers`, not
      counting the rows in `except` (the row being overwritten, if any). */
  predicate ViolatesUniqueness(servers: map<Id, BankServer>, candidate: BankServer, except: set<Id>) {
    exists k :: k in servers && k !in except
      && (servers[k].name == candidate.name || servers[k].serverIpAddress == candidate.serverIpAddress)
  }

  /** Writing `candidate` at key `id` keeps both unique constraints exactly
      when no other row already uses its name or its address. */
  lemma {:induction false} UniquenessAfterWrite(servers: map<Id, BankServer>, id: Id, candidate: BankServer)
    ensures UniqueNames(servers) && UniqueAddresses(servers) ==>
      (!ViolatesUniqueness(servers, candidate, {id}) <==>
       (UniqueNames(servers[id := candidate]) && UniqueAddresses(servers[id := candidate])))
  {
    var m := servers[id := candidate];
    if ViolatesUniqueness(servers, candidate, {id}) {
      var k :| k in servers && k !in {id}
        && (servers[k].name == candidate.name || servers[k].serverIpAddress == candidate.serverIpAddress);
      assert k in m && id in m && k != id && m[k] == servers[k] && m[id] == candidate;
    }
  }

  // ---------------------------------------------------------------------
  // Sub-stores, used to characterise cascading deletes.
  // ---------------------------------------------------------------------

  /** Every row of `small` is a row of `big`, unchanged. */
  ghost predicate SubMap<V>(small: map<Id, V>, big: map<Id, V>) {
    forall k :: k in small ==> k in big && big[k] == small[k]
  }

  /** Each table of `small` is a part of the same table of `big`. */
  ghost predicate SubStore(small: Store, big: Store) {
    SubMap(small.servers, big.servers)
    && SubMap(small.accounts, big.accounts)
    && SubMap(small.transactions, big.transactions)
  }

  /** The three key counters of `a` and `b` stand at the same values: a
      delete never hands a key back. */
  predicate SameCounters(a: Store, b: Store) {
    a.nextServerId == b.nextServerId && a.nextAccountId == b.nextAccountId
    && a.nextTransactionId == b.nextTransactionId
  }

  // ---------------------------------------------------------------------
  // Table scans.
  // ---------------------------------------------------------------------

  /** The keys of `m` below `n`, in ascending (insertion) order. */
  function AscendingKeys<V>(m: map<Id, V>, n: Id): (ks: seq<Id>)
    ensures forall k :: k in ks <==> k in m && 1 <= k < n
    ensures forall i, j :: 0 <= i < j < |ks| ==> ks[i] < ks[j]
    decreases n
  {
    if n <= 1 then []
    else
      var lower := AscendingKeys(m, n - 1);
      if n - 1 in m then
        assert forall i :: 0 <= i < |lower| ==> lower[i] in lower;
        lower + [n - 1]
      else lower
  }
}

=== FILE: results.dfy ===
/** Outcomes shared by every endpoint of the record store. */
module Results {

  /** An optional value: a nullable column or a field a request may omit. */
  datatype Option<+T> = None | Some(value: T)

  /** The three ways a request can fail.
      - NotFound: a referenced id is absent (HTTP 404).
      - Conflict: a uniqueness constraint of the storage would be violated.
      - Unauthorized: the bearer token is missing or is not the secret (HTTP 401). */
  datatype Error = NotFound | Conflict | Unauthorized

  /** Either a value or an error; a failed request never carries a value. */
  datatype Result<+T> = Ok(value: T) | Err(error: Error)
}

=== FILE: routes.dfy ===
/** The HTTP surface: fifteen routes, all behind the bearer check. A request
    is one atomic step from a database to a reply and a database. */
module Routes {
  import opened Results
  import opened Models
  import opened Schema
  import Api

  /** One request per route; the body, where there is one, is already parsed. */
  datatype Request =
    | GetBankServers
    | GetBankServer(serverId: Id)
    | PostBankServer(server: ServerPayload)
    | PutBankServer(serverId: Id, server: ServerPayload)
    | DeleteBankServer(serverId: Id)
    | GetBankAccounts
    | GetBankAccount(accountId: Id)
    | PostBankAccount(account: AccountCreate)
    | PutBankAccount(accountId: Id, account: AccountCreate)
    | DeleteBankAccount(accountId: Id)
    | GetTransactions
    | GetTransaction(transactionId: Id)
    | PostTransaction(transaction: TransactionCreate)
    | PutTransactionStatus(transactionId: Id, update: StatusUpdate)
    | DeleteTransaction(transactionId: Id)
  {
    /** The GET routes. */
    predicate IsRead() {
      GetBankServers? || GetBankServer? || GetBankAccounts? || GetBankAccount?
      || GetTransactions? || GetTransaction?
    }
  }

  /** A response body; the DELETE routes answer with no content. */
  datatype Response =
    | ServerList(servers: seq<ServerView>)
    | ServerBody(server: ServerView)
    | AccountList(accounts: seq<AccountView>)
    | AccountBody(account: AccountView)
    | TransactionList(transactions: seq<TransactionView>)
    | TransactionBody(transaction: TransactionView)
    | NoContent

  /** What the caller sees, and the database afterwards. */
  datatype Reply = Reply(response: Result<Response>, store: Store)

  /** Commits a write: on error the database is left as it was. */
  function Commit<T>(s: Store, r: Result<Api.Effect<T>>, wrap: T -> Response): Reply {
    match r
    case Ok(e) => Reply(Ok(wrap(e.body)), e.store)
    case Err(e) => Reply(Err(e), s)
  }

  /** Commits a delete, which answers with no content. */
  function CommitDelete(s: Store, r: Result<Store>): Reply {
    match r
    case Ok(s') => Reply(Ok(NoContent), s')
    case Err(e) => Reply(Err(e), s)
  }

  /** The route table, past the bearer check. */
  function Dispatch(s: Store, req: Request, now: Timestamp): (reply: Reply)
    requires Valid(s)
    ensures reply.response.Err? ==> reply.store == s && reply.response.error != Unauthorized
    ensures req.IsRead() ==> reply.store == s
    ensures Valid(reply.store)
  {
    match req
    case GetBankServers => Reply(Ok(ServerList(Api.ListBankServers(s))), s)
    case GetBankServer(id) =>
      Reply(match Api.GetBankServer(s, id) case Ok(v) => Ok(ServerBody(v)) case Err(e) => Err(e), s)
    case PostBankServer(p) => Commit(s, Api.CreateBankServer(s, p), v => ServerBody(v))
    case PutBankServer(id, p) => Commit(s, Api.UpdateBankServer(s, id, p), v => ServerBody(v))
    case DeleteBankServer(id) => CommitDelete(s, Api.DeleteBankServer(s, id))
    case GetBankAccounts => Reply(Ok(AccountList(Api.ListBankAccounts(s))), s)
    case GetBankAccount(id) =>
      Reply(match Api.GetBankAccount(s, id) case Ok(v) => Ok(AccountBody(v)) case Err(e) => Err(e), s)
    case PostBankAccount(p) => Commit(s, Api.CreateBankAccount(s, p), v => AccountBody(v))
    case PutBankAccount(id, p) => Commit(s, Api.UpdateBankAccount(s, id, p), v => AccountBody(v))
    case DeleteBankAccount(id) => CommitDelete(s, Api.DeleteBankAccount(s, id))
    case GetTransactions => Reply(Ok(TransactionList(Api.ListTransactions(s))), s)
    case GetTransaction(id) =>
      Reply(match Api.GetTransaction(s, id) case Ok(v) => Ok(TransactionBody(v)) case Err(e) => Err(e), s)
    case PostTransaction(p) => Commit(s, Api.CreateTransaction(s, p, now), v => TransactionBody(v))
    case PutTransactionStatus(id, p) =>
      Commit(s, Api.UpdateTransactionStatus(s, id, p), v => TransactionBody(v))
    case DeleteTransaction(id) => CommitDelete(s, Api.DeleteTransaction(s, id))
  }

  /** True when the request carries the secret as its bearer token. */
  predicate Authorized(bearer: Option<string>) {
    bearer.Some? && Api.Authenticate(bearer.value).Some?
  }

  /** Serves one request. `bearer` is the token of the Authorization
      header, None when the header is missing or not a bearer header;
      `now` is the clock reading a create stamps on a new transaction. */
  function Handle(s: Store, bearer: Option<string>, req: Request, now: Timestamp): (reply: Reply)
    requires Valid(s)
    ensures reply.response == Err(Unauthorized) <==> !(bearer.Some? && bearer.value == Api.ApiSecret)
    ensures reply.response.Err? ==> reply.store == s
    ensures req.IsRead() ==> reply.store == s
    ensures Valid(reply.store)
  {
    if !Authorized(bearer) then Reply(Err(Unauthorized), s)
    else Dispatch(s, req, now)
  }

  // ---------------------------------------------------------------------
  // Properties across requests.
  // ---------------------------------------------------------------------

  /** Whatever body a successful request returns, a GET of the same id on
      the resulting database returns again. */
  lemma {:induction false} BodyIsReadBack(s: Store, bearer: Option<string>, req: Request, now: Timestamp)
    requires Valid(s)
    ensures var r := Handle(s, bearer, req, now);
      r.response.Ok? ==>
        match r.response.value
        case ServerBody(v) => Handle(r.store, bearer, GetBankServer(v.id), now).response == r.response
        case AccountBody(v) => Handle(r.store, bearer, GetBankAccount(v.id), now).response == r.response
        case TransactionBody(v) => Handle(r.store, bearer, GetTransaction(v.id), now).response == r.response
        case _ => true
  {
  }

  /** A transaction row that survives a request keeps its creation time and
      every client-supplied column; only the status route for that very row
      changes its status. */
  lemma {:induction false} TransactionColumnsAreStable(s: Store, bearer: Option<string>, req: Request, now: Timestamp)
    requires Valid(s)
    ensures var s' := Handle(s, bearer, req, now).store;
      forall t :: t in s.transactions && t in s'.transactions ==>
        && s'.transactions[t].createdAt == s.transactions[t].createdAt
        && PayloadOf(s'.transactions[t]) == PayloadOf(s.transactions[t])
        && (s'.transactions[t].status != s.transactions[t].status ==>
              req.PutTransactionStatus? && req.transactionId == t)
  {
  }

  /** A created transaction is "pending", whatever the body holds, and
      carries the clock reading as its creation time. */
  lemma {:induction false} CreatedTransactionIsPending(s: Store, bearer: Option<string>, p: TransactionCreate, now: Timestamp)
    requires Valid(s)
    ensures var r := Handle(s, bearer, PostTransaction(p), now);
      r.response.Ok? ==>
        && r.response.value.TransactionBody?
        && r.response.value.transaction.status == Pending
        && r.response.value.transaction.createdAt == now
  {
  }

  /** Target fields a create body leaves out are None in the stored row and
      in the response. */
  lemma {:induction false} OmittedTargetsStayNone(s: Store, bearer: Option<string>, transactionType: string,
                                                  amount: Cents, sourceAccount: Id, now: Timestamp)
    requires Valid(s)
    ensures var r := Handle(s, bearer, PostTransaction(TransactionCreate(transactionType, amount, sourceAccount)), now);
      r.response.Ok? ==>
        && r.response.value.TransactionBody?
        && var v := r.response.value.transaction;
           && v.targetIban.None? && v.targetSwiftCode.None? && v.targetBankAccountNumber.None?
           && v.targetBankName.None? && v.targetPhoneNumber.None? && v.targetCountry.None?
           && v.provider.None?
  {
  }

  // ---------------------------------------------------------------------
  // A walk-through with the example bodies of the handlers' docstrings.
  // It starts from a database holding the two servers and two accounts
  // those examples refer to. The transaction counter stands at 4, so that
  // the mobile transfer gets the id its example response shows; the
  // earlier transactions of the examples are not part of this database.
  // ---------------------------------------------------------------------

  function ExampleStore(): (s: Store)
    ensures Valid(s)
  {
    Store(
      map[1 := BankServer("Main Bank Server", "192.168.1.100"),
          2 := BankServer("Backup Bank Server", "192.168.1.101")],
      map[1 := BankAccount(1, "Checking Account", "123456789"),
          2 := BankAccount(2, "Savings Account", "987654321")],
      map[], 3, 3, 4)
  }

  function AfterServerExample(): Store {
    ExampleStore().(servers := ExampleStore().servers[3 := BankServer("New Bank Server", "192.168.1.102")],
                    nextServerId := 4)
  }

  function AfterAccountExample(): Store {
    AfterServerExample().(accounts := AfterServerExample().accounts[3 := BankAccount(1, "Payroll Account", "987654321")],
                          nextAccountId := 4)
  }

  /** The mobile transfer body: 50.00 is 5000 cents. */
  function TransferExample(): TransactionCreate {
    TransactionCreate("mobile_transfer", 5000, 2, targetPhoneNumber := Some("+1 555-1234"), provider := Some("CashApp"))
  }

  function AfterTransferExample(status: string): Store {
    AfterAccountExample().(transactions := map[4 := NewTransaction(TransferExample(), status, 7)], nextTransactionId := 5)
  }

  /** The transfer's view: source account 2 nests server 2, without its address. */
  function TransferView(status: string): TransactionView {
    TransactionView(4, "mobile_transfer", 5000,
      AccountView(2, ServerView(2, "Backup Bank Server"), "Savings Account", "987654321"), status, 7,
      targetPhoneNumber := Some("+1 555-1234"), provider := Some("CashApp"))
  }

  /** The server create example gets id 3 and echoes the name. */
  lemma ServerStep()
    ensures Valid(AfterServerExample())
    ensures Handle(ExampleStore(), Some(Api.ApiSecret),
                   PostBankServer(ServerPayload("New Bank Server", "192.168.1.102")), 0)
      == Reply(Ok(ServerBody(ServerView(3, "New Bank Server"))), AfterServerExample())
  {
    assert !ViolatesUniqueness(ExampleStore().servers, BankServer("New Bank Server", "192.168.1.102"), {});
  }

  /** The account create example on server 1 gets id 3 and embeds server 1. */
  lemma AccountStep()
    ensures Valid(AfterAccountExample())
    ensures Handle(AfterServerExample(), Some(Api.ApiSecret),
                   PostBankAccount(AccountCreate(1, "Payroll Account", "987654321")), 0)
      == Reply(Ok(AccountBody(AccountView(3, ServerView(1, "Main Bank Server"), "Payroll Account", "987654321"))),
               AfterAccountExample())
  {
    ServerStep();
  }

  /** The mobile transfer example gets id 4, comes back "pending", and nests
      account 2 with server 2; its type is not a declared choice. */
  lemma TransactionStep()
    ensures Valid(AfterTransferExample(Pending))
    ensures Handle(AfterAccountExample(), Some(Api.ApiSecret), PostTransaction(TransferExample()), 7)
      == Reply(Ok(TransactionBody(TransferView(Pending))), AfterTransferExample(Pending))
    ensures TransferExample().transactionType !in TransactionTypes
  {
    AccountStep();
  }

  /** The status example's body, "completed", applied to the mobile
      transfer, is stored as sent. */
  lemma StatusStep()
    ensures Handle(AfterTransferExample(Pending), Some(Api.ApiSecret), PutTransactionStatus(4, StatusUpdate("completed")), 9)
      == Reply(Ok(TransactionBody(TransferView("completed"))), AfterTransferExample("completed"))
  {
    TransactionStep();
  }

  /** The four examples in sequence, each on the database the previous one left. */
  lemma ExampleScenario()
    ensures
      var key := Some(Api.ApiSecret);
      var r1 := Handle(ExampleStore(), key, PostBankServer(ServerPayload("New Bank Server", "192.168.1.102")), 0);
      var r2 := Handle(r1.store, key, PostBankAccount(AccountCreate(1, "Payroll Account", "987654321")), 0);
      var r3 := Handle(r2.store, key, PostTransaction(TransferExample()), 7);
      var r4 := Handle(r3.store, key, PutTransactionStatus(4, StatusUpdate("completed")), 9);
      && r1.response == Ok(ServerBody(ServerView(3, "New Bank Server")))
      && r2.response == Ok(AccountBody(AccountView(3, ServerView(1, "Main Bank Server"), "Payroll Account", "987654321")))
      && r3.response == Ok(TransactionBody(TransferView(Pending)))
      && r4.response == Ok(TransactionBody(TransferView("completed")))
  {
    ServerStep();
    AccountStep();
    TransactionStep();
    StatusStep();
  }

  /** The status route stores a value outside the declared choices. */
  lemma StatusOutsideChoicesIsStored()
    ensures
      var r := Handle(AfterTransferExample(Pending), Some(Api.ApiSecret), PutTransactionStatus(4, StatusUpdate("completed")), 9);
      && r.response.Ok?
      && 4 in r.store.transactions
      && r.store.transactions[4].status !in TransactionStatuses
  {
    TransactionStep();
  }

  /** Nothing ties the type to the target fields, nor restricts it to the
      declared choices: a "BANK" transfer with only a phone number, and a
      type outside the choices, are both stored. */
  lemma TypeIsNotTiedToTargets()
    ensures
      var key := Some(Api.ApiSecret);
      var r1 := Handle(ExampleStore(), key, PostTransaction(TransactionCreate(BankTransfer, 100, 1,
                  targetPhoneNumber := Some("+1 555-1234"))), 8);
      var r2 := Handle(ExampleStore(), key, PostTransaction(TransactionCreate("CRYPTO", 100, 1)), 8);
      && r1.response.Ok? && r2.response.Ok?
      && r2.response.value.TransactionBody?
      && r2.response.value.transaction.transactionType !in TransactionTypes
  {
  }

  /** A new server whose name or address some server already holds is
      rejected with Conflict, and nothing is written. */
  lemma {:induction false} DuplicateServerIsRejected(s: Store, p: ServerPayload, k: Id, now: Timestamp)
    requires Valid(s) && k in s.servers
    requires s.servers[k].name == p.name || s.servers[k].serverIpAddress == p.serverIpAddress
    ensures Handle(s, Some(Api.ApiSecret), PostBankServer(p), now) == Reply(Err(Conflict), s)
  {
    assert ViolatesUniqueness(s.servers, ServerRow(p), {});
  }

  /** Updating a server to a name or address that another server holds is
      rejected with Conflict, and nothing is written. */
  lemma {:induction false} DuplicateServerUpdateIsRejected(s: Store, serverId: Id, p: ServerPayload, k: Id, now: Timestamp)
    requires Valid(s) && serverId in s.servers && k in s.servers && k != serverId
    requires s.servers[k].name == p.name || s.servers[k].serverIpAddress == p.serverIpAddress
    ensures Handle(s, Some(Api.ApiSecret), PutBankServer(serverId, p), now) == Reply(Err(Conflict), s)
  {
    assert ViolatesUniqueness(s.servers, ServerRow(p), {serverId});
  }

  /** Keys are never handed out twice: no request moves a counter back, and
      every row a request adds has a key at or above the counter it found. */
  lemma {:induction false} KeysNeverReused(s: Store, bearer: Option<string>, req: Request, now: Timestamp)
    requires Valid(s)
    ensures var s' := Handle(s, bearer, req, now).store;
      && s.nextServerId <= s'.nextServerId
      && s.nextAccountId <= s'.nextAccountId
      && s.nextTransactionId <= s'.nextTransactionId
      && (forall k :: k in s'.servers && k !in s.servers ==> k >= s.nextServerId)
      && (forall k :: k in s'.accounts && k !in s.accounts ==> k >= s.nextAccountId)
      && (forall k :: k in s'.transactions && k !in s.transactions ==> k >= s.nextTransactionId)
  {
  }
}

=== FILE: schema.dfy ===
/** Request bodies and response views. Views are built from rows by
    following foreign keys: a transaction view nests the view of its
    source account, which nests the view of that account's server. */
module Schema {
  import opened Results
  import opened Models

  // ---------------------------------------------------------------------
  // Response views.
  // ---------------------------------------------------------------------

  /** The server view. The server schema is declared twice and the second
      declaration, which has no address field, is the one in effect. */
  datatype ServerView = ServerView(id: Id, name: string)

  /** The account view embeds its server's view rather than the server id. */
  datatype AccountView = AccountView(id: Id, bankServer: ServerView, accountName: string, accountNumber: string)

  /** The transaction view; the seven target fields default to None. */
  datatype TransactionView = TransactionView(
    id: Id,
    transactionType: string,
    amount: Cents,
    sourceAccount: AccountView,
    status: string,
    createdAt: Timestamp,
    targetIban: Option<string> := None,
    targetSwiftCode: Option<string> := None,
    targetBankAccountNumber: Option<string> := None,
    targetBankName: Option<string> := None,
    targetPhoneNumber: Option<string> := None,
    targetCountry: Option<string> := None,
    provider: Option<string> := None)

  // ---------------------------------------------------------------------
  // Request bodies.
  // ---------------------------------------------------------------------

  /** Body of server create and update. Both handlers read a name and an
      address from it, although the server schema in effect declares no
      address field; the model takes the pair the server table stores. */
  datatype ServerPayload = ServerPayload(name: string, serverIpAddress: string)

  /** Body of account create and update: the server is named by its id. */
  datatype AccountCreate = AccountCreate(bankServer: Id, accountName: string, accountNumber: string)

  /** Body of transaction create. It has no status field, and the seven
      target fields default to None. */
  datatype TransactionCreate = TransactionCreate(
    transactionType: string,
    amount: Cents,
    sourceAccount: Id,
    targetIban: Option<string> := None,
    targetSwiftCode: Option<string> := None,
    targetBankAccountNumber: Option<string> := None,
    targetBankName: Option<string> := None,
    targetPhoneNumber: Option<string> := None,
    targetCountry: Option<string> := None,
    provider: Option<string> := None)

  /** Body of the status update: any string. */
  datatype StatusUpdate = StatusUpdate(status: string)

  // ---------------------------------------------------------------------
  // Rows and request bodies.
  // ---------------------------------------------------------------------

  /** The server row a create or update writes. */
  function ServerRow(p: ServerPayload): BankServer {
    BankServer(p.name, p.serverIpAddress)
  }

  /** The account row a create or update writes. */
  function AccountRow(p: AccountCreate): BankAccount {
    BankAccount(p.bankServer, p.accountName, p.accountNumber)
  }

  /** The part of a transaction row a client supplies. */
  function PayloadOf(t: Transaction): TransactionCreate {
    TransactionCreate(t.transactionType, t.amount, t.sourceAccount,
      t.targetIban, t.targetSwiftCode, t.targetBankAccountNumber, t.targetBankName,
      t.targetPhoneNumber, t.targetCountry, t.provider)
  }

  /** The row a create writes: the body's fields, plus the status and the
      creation time that the server fills in. */
  function NewTransaction(p: TransactionCreate, status: string, createdAt: Timestamp): (t: Transaction)
    ensures PayloadOf(t) == p
    ensures t.status == status && t.createdAt == createdAt
  {
    Transaction(p.transactionType, p.amount, p.sourceAccount,
      p.targetIban, p.targetSwiftCode, p.targetBankAccountNumber, p.targetBankName,
      p.targetPhoneNumber, p.targetCountry, p.provider,
      status, createdAt)
  }

  /** A row is exactly its client part, its status and its creation time. */
  lemma RowDecomposes(t: Transaction)
    ensures NewTransaction(PayloadOf(t), t.status, t.createdAt) == t
  {
  }

  // ---------------------------------------------------------------------
  // Views of rows.
  // ---------------------------------------------------------------------

  function ServerViewOf(id: Id, server: BankServer): ServerView {
    ServerView(id, server.name)
  }

  /** Two server views agree exactly when id and name agree: the address
      never reaches a response. */
  lemma ServerViewForgetsAddress(id: Id, a: BankServer, id': Id, b: BankServer)
    ensures ServerViewOf(id, a) == ServerViewOf(id', b) <==> id == id' && a.name == b.name
  {
  }

  /** The account row shown by a view. */
  function AccountOf(v: AccountView): BankAccount {
    BankAccount(v.bankServer.id, v.accountName, v.accountNumber)
  }

  /** The view of account `id`, with its server looked up and embedded. */
  function AccountViewAt(s: Store, id: Id): (v: AccountView)
    requires id in s.accounts && s.accounts[id].bankServer in s.servers
    ensures v.id == id && AccountOf(v) == s.accounts[id]
    ensures v.bankServer == ServerViewOf(s.accounts[id].bankServer, s.servers[s.accounts[id].bankServer])
  {
    var a := s.accounts[id];
    AccountView(id, ServerViewOf(a.bankServer, s.servers[a.bankServer]), a.accountName, a.accountNumber)
  }

  /** The transaction row shown by a view. */
  function TransactionOf(v: TransactionView): Transaction {
    Transaction(v.transactionType, v.amount, v.sourceAccount.id,
      v.targetIban, v.targetSwiftCode, v.targetBankAccountNumber, v.targetBankName,
      v.targetPhoneNumber, v.targetCountry, v.provider,
      v.status, v.createdAt)
  }

  /** The view of transaction `t`: every column copied verbatim, with the
      source account replaced by its nested view. */
  function TransactionViewAt(s: Store, t: Id): (v: TransactionView)
    requires t in s.transactions && TransactionResolves(s, t)
    ensures v.id == t && TransactionOf(v) == s.transactions[t]
    ensures v.sourceAccount == AccountViewAt(s, s.transactions[t].sourceAccount)
  {
    var r := s.transactions[t];
    TransactionView(
      id := t,
      transactionType := r.transactionType,
      amount := r.amount,
      sourceAccount := AccountViewAt(s, r.sourceAccount),
      targetIban := r.targetIban,
      targetSwiftCode := r.targetSwiftCode,
      targetBankAccountNumber := r.targetBankAccountNumber,
      targetBankName := r.targetBankName,
      targetPhoneNumber := r.targetPhoneNumber,
      targetCountry := r.targetCountry,
      provider := r.provider,
      status := r.status,
      createdAt := r.createdAt)
  }
}
